=== FILE: README.md ===
# PaintedEggs core in Dafny

A model of the game logic of PaintedEggs, a top-down exploration game: a
player walks over a four-layer, 1024×720 map, collects eggs, and must reach
the egg goal before a 180-second countdown runs out. The model covers what
`main.cpp` decides each frame:

- the generic `clamp` and the camera (`World::update_viewport`);
- the movement engine: sub-pixel accumulators drained one pixel at a time,
  each pixel checked against the current layer's walk mask (blue leads a
  layer down, yellow a layer up, black is a wall);
- collection with inclusive sprite-sized hitboxes, per-type counters, the
  win test and the countdown;
- the mode controller: `update_state`, the `OnUserUpdate` dispatcher, and
  the transition logic of INIT, CREDITS, TITLE, MAIN (here `Play`), WON,
  LOST, SLEEP and PAUSE.

Files, one module each: `clamp.dfy` (Clamping), `world.dfy` (WorldModel:
data and camera), `movement.dfy` (Movement), `collection.dfy` (Collection),
`level.dfy` (Level: the world INIT builds), `controller.dfy` (Controller:
modes, handlers, frame), `session.dfy` (Session: invariants over runs of
frames), `scenarios.dfy` (Scenarios: worked examples).

The model is functional. A `Game` record holds the mode, the mode-local
timer, the world, the two accumulators and the menu cursor. `Frame` maps a
game, an input snapshot and the assets to the next game, or to `Halt` in
EXIT. The outside world comes in as parameters:
- an `Input` record carries the frame's elapsed time, the pressed and held
  keys, and whether loading succeeds;
- `Assets` carries one walk mask per layer, as a total function from pixel
  to colour, and the egg sprite's size.

Positions are whole pixels (`int`). The source keeps them in `float`, but
they start integral and only change by whole pixels or by clamping to
integer bounds. Timers, accumulators and the countdown are `real`.

The source never checks the layer index. The model makes this a content
contract on the masks, `Movement.WellAuthored`: no blue pixel on the bottom
layer and no yellow pixel on the top one. The movement engine then proves
that the layer stays in range.

A failed load is retried: `timer` keeps growing while the mode stays INIT,
so every later frame rebuilds the world and tries the load again (main.cpp:184, 334-339). `InitFrame` states exactly that.

## Model

| member | source | states |
|---|---|---|
| Clamping.Clamp | main.cpp:18-28 | with `lo <= hi` the result lies in `[lo, hi]`; a value already inside is returned unchanged; the result is always one of `v`, `lo`, `hi` |
| Clamping.ClampIsNearest | main.cpp:18-28 | clamp returns the unique point of `[lo, hi]` nearest to the input |
| Clamping.ClampMonotone | main.cpp:18-28 | clamping preserves the order of inputs |
| Clamping.ClampIdempotent | main.cpp:18-28 | clamping an already clamped value changes nothing |
| Clamping.ClampTowards | main.cpp:18-28 | a value on one side of an in-range point is clamped to somewhere between that point and itself |
| WorldModel.UpdateViewport | main.cpp:85-95 | only the viewport fields change; when the screen fits, `0 <= viewport <= world - screen` on each axis; away from the edges the viewport is the player position less half the screen; within half a screen of an edge it is pinned to 0 or to world − screen |
| Movement.PixelStep | main.cpp:449-460 | black ahead: position and layer unchanged; otherwise exactly one pixel forward along the travel axis with the perpendicular coordinate fixed; blue lowers the layer by 1, yellow raises it by 1, other colours keep it |
| Movement.Drain | main.cpp:449-461 | the drain loop: the accumulator drops by exactly the number of whole pixels it held and ends below one pixel; progress is between 0 and that number and never off-axis; the layer moves by at most that number and stays a valid index under the mask contract |
| Movement.Block | main.cpp:447-463 | an unheld key changes nothing; a held key banks `step` on top of the accumulator, signed toward the key, keeps only the fraction below one pixel, and moves the player between 0 and that many whole pixels in the key's direction; an accumulator in (−1, 1) with a non-negative step stays in (−1, 1) |
| Movement.AxisPass | main.cpp:447-514 | the two blocks of one axis: the perpendicular coordinate and, with no key held, everything is kept; with exactly one key held, the accumulator and the coordinate follow that key's rule (`AccumulatorPaid`, `CoordinatePaid`); the layer stays valid |
| Movement.ClampKeepsPaid | main.cpp:515-516 | clamping into the world keeps an axis's position rule when the start was inside the world |
| Movement.Move | main.cpp:443-516 | the position ends in `[0, width] × [0, height]`, the layer stays valid, and both accumulators stay in (−1, 1) for non-negative elapsed time; on each axis the accumulator follows `AccumulatorPaid` with `60·elapsed` banked: kept with no key held, and with exactly one key held the banked amount (signed toward the key) less its whole pixels; from an in-world start the coordinate follows `CoordinatePaid`: kept with no key held, otherwise moved toward the one held key by at most the whole pixels banked; `MotionPaid` bundles the four facts for the frame-level contracts |
| Movement.IdleStaysPut | main.cpp:447-516 | with no direction held, an in-bounds player and both accumulators stay exactly as they were |
| Movement.WallBlocks | main.cpp:449-460 | a black pixel straight ahead stops the whole block, however much movement was banked |
| Movement.OpenGroundMovesFully | main.cpp:449-460 | over open ground every banked pixel is paid out as one pixel of movement on the same layer |
| Collection.CollectAll | main.cpp:519-529 | the pass over one layer: a collectible ends collected iff it was, or the player is inside its inclusive sprite-sized hitbox; nothing else about a collectible changes; each type's counter rises by exactly the number of its collectibles newly marked |
| Collection.CollectIdempotent | main.cpp:519-529 | collecting twice at the same spot adds nothing the first pass did not |
| Collection.CountAfterMarking | main.cpp:519-529 | when flags only go from false to true, the number collected rises by exactly the number newly marked |
| Collection.CollectStep | main.cpp:519-529 | collection touches only the player's current layer, only flips flags from false to true, and raises each counter by its newly marked count |
| Collection.CollectStepKeepsCounters | main.cpp:519-529 | collection keeps every type's counter equal to the number of its collectibles collected over the whole world |
| Collection.IsWon | main.cpp:531-537 | won iff every type with a positive goal has collected at least its goal |
| Collection.UnscoredTypeIrrelevant | main.cpp:531-537 | a goal-0 type's count never changes the win test |
| Level.LoadedWorld | main.cpp:190-332 | INIT's world: 1024×720, four layers, one type "Eggs" with goal 20, count 0 and the egg sprite's size as its hitbox, every egg of that type and uncollected |
| Level.GoalIsEveryEgg | main.cpp:199-332 | the level places exactly as many eggs as the goal, 20: 9, 5, 6 and 0 on layers 0 to 3 |
| Level.CollectedWithinPlaced | main.cpp:519-529 | no counter of collected collectibles of a kind can exceed the number of that kind placed over all layers |
| Level.WinNeedsEveryEgg | main.cpp:532-538 | with consistent counters and as many eggs placed as the goal, a win means every egg on every layer has been collected |
| Controller.UpdateState | main.cpp:119-128 | the game is unchanged iff the mode is the same; on a change, timer, both accumulators and the cursor are zeroed; the world is never touched |
| Controller.InitFrame | main.cpp:182-348 | the first frame (timer 0) changes nothing and stays in INIT; any later frame builds the world and goes to CREDITS iff loading succeeds, else stays in INIT |
| Controller.CreditsPanel | main.cpp:355-386 | the credits are over exactly from 20 s on (the running total of 3, 1, 3.5, 1, 4, 1, 5 and 1.5 s); before 3 s the engine credit shows |
| Controller.CreditsInOrder | main.cpp:355-386 | panels appear in their fixed order and never go back as time grows |
| Controller.CreditsFrame | main.cpp:350-389 | CREDITS goes to TITLE iff ESC is pressed or 20 s have passed, else stays, changing nothing |
| Controller.ResetSession | main.cpp:393-408 | the title screen's session reset: 180 s, layer 1, position (571, 459), camera recentred on the start position as `update_viewport` does, every collectible uncollected and visible, every counter 0, nothing else about layers or types changed |
| Controller.MoveCursor | main.cpp:417-423 | the cursor ends in {0, 1}; from {0, 1}, down alone selects 1, up alone selects 0, both or neither leave it |
| Controller.TitleFrame | main.cpp:391-435 | the reset runs iff the timer is 0; confirm acts on the cursor before this frame's input (0 to MAIN, 1 to EXIT); otherwise the cursor moves and the screen sleeps iff ESC or more than 30 s idle; the cursor always ends in {0, 1} |
| Controller.MoveAndCollect | main.cpp:443-529 | movement then collection: the player moves by the rule of `Movement.Move` (`MotionPaid`: each axis accumulator pays out its whole pixels toward the one held key, and the coordinate moves toward that key by at most those pixels, or neither changes with no key held); collection then runs on the layer and at the position where movement ends, and there a collectible ends collected iff it was or the player is inside its hitbox; other layers are untouched; each counter rises by exactly the number of its collectibles newly marked and nothing else about a type changes; the world stays fit for play and the player inside it |
| Controller.Settle | main.cpp:531-616 | WON iff the goals are met, and then the clock is untouched; otherwise the clock drops by exactly the elapsed time and the frame is LOST iff it reaches 0 or below; a lost frame leaves the camera where it was, any other frame recentres it on the player as `update_viewport` does |
| Controller.PlayStep | main.cpp:443-616 | a MAIN frame without ESC: the player moves by the rule of `Movement.Move` (`MotionPaid`, as for `MoveAndCollect`); collection happens on the layer and at the position where movement ends; the next mode is MAIN, WON or LOST with the clock rules of `Settle`; a frame that is not lost recentres the camera on the player, a lost one leaves it; flags never revert and counters never fall |
| Controller.PlayFrame | main.cpp:437-617 | ESC goes to PAUSE with nothing moved; otherwise the player moves by the rule of `Movement.Move` (`MotionPaid`), the next mode is MAIN, WON or LOST as above, the layer stays valid, the player stays in the world, flags never revert and counters never fall; collection happens on the layer and at the position where movement ends; a frame that is not lost recentres the camera, a lost one leaves it |
| Controller.OutcomeFrame | main.cpp:619-648 | WON and LOST: confirm goes to TITLE; otherwise SLEEP iff more than 30 s idle, else stay |
| Controller.SleepFrame | main.cpp:650-670 | SLEEP goes to CREDITS iff ESC, SPACE or ENTER is pressed, else stays |
| Controller.PauseFrame | main.cpp:672-698 | ESC or confirm acts on the cursor before this frame's input (0 to MAIN, 1 to TITLE); otherwise the cursor moves and the game quits to TITLE iff more than 300 s idle; the cursor always ends in {0, 1} |
| Controller.Handle | main.cpp:145-172 | no handler touches the mode or the timer; only MAIN needs the walk masks to be well authored and the layer index valid (`Controller.FrameReady`) |
| Controller.Frame | main.cpp:142-180 | EXIT halts and nothing else does; the new mode is the handler's verdict; staying keeps the handler's game (accumulators and cursor included) with the elapsed time added to the timer; changing discards it and zeroes timer, accumulators and cursor |
| Session.LoadedWorldInv | main.cpp:190-341 | the world INIT loads satisfies the session invariant |
| Session.ResetSessionInv | main.cpp:393-408 | the title reset keeps the session invariant, counters included |
| Session.PlayKeepsCounters | main.cpp:519-529 | a play frame keeps every counter equal to its number of collected collectibles |
| Session.FramePreservesInv | main.cpp:142-180 | from the start state on, every frame keeps: accumulators in (−1, 1), cursor in {0, 1}, and after loading a valid layer index, the player and the camera inside the world, counters equal to collected counts |
| Session.TitleEntryResets | main.cpp:174-176 | entering TITLE from another mode makes the next frame start a fresh session, whatever its input |
| Session.MenuCursorInRange | main.cpp:417-423 | any frame ending in TITLE or PAUSE leaves the cursor in {0, 1}, whatever it held before |
| Session.MarksNeverRevert | main.cpp:519-529 | outside loading and the title reset, no frame clears a collected flag |
| Scenarios.ViewportCorners | main.cpp:85-95 | a 256×240 screen over a 1024×720 world: player at (0, 0) gives camera (0, 0); at (1024, 720) gives (768, 480) |
| Scenarios.PickingUpTheLastEggWins | main.cpp:519-616 | a player at (105, 105) takes the only egg at (100, 100) with a 16×16 sprite; the count becomes 1 and the frame ends in WON with the clock untouched |
| Scenarios.ClockRunsDown | main.cpp:538-546 | with the goal unmet, 180 s less a 0.5 s frame leaves 179.5 s and play goes on |
| Scenarios.ClockRunsOut | main.cpp:538-546 | the frame that brings the clock to 0 ends in LOST |
| Scenarios.TitleCursorStopsAtExit | main.cpp:417-423 | on the title screen, one down press moves the cursor from 0 to 1 and a second leaves it at 1 |
| Scenarios.ResumeFromPause | main.cpp:674-680 | confirm with cursor 0 in PAUSE returns to MAIN with a fresh timer |
| Scenarios.SessionStartCamera | main.cpp:393-398 | a new session on the loaded level puts the camera at (443, 339) |
| Scenarios.StairsDown | main.cpp:449-511 | walking up into blue moves one pixel up and one layer down; walking right into black does not move |

## Left out

- Rendering (`Clear`, `DrawString`, `DrawSprite`, `DrawPartialSprite`, `SetPixelMode`, the score and clock text): output-only calls into olcPixelGameEngine, which is not part of this model.
- The SLEEP orbit animation: it uses floating-point `sin`/`cos` and only decides where sprites are drawn.
- Asset decoding (`LoadFromFile`) and the failure list: INIT's load outcome is the boolean `Input.loadSucceeds`, not the `failed.size() != 1` bookkeeping.
- Key polling: the keyboard is an `Input` snapshot. The key aliases are merged into logical keys: UP/W/K, DOWN/S/J, LEFT/A/H, RIGHT/D/L, and confirm for SPACE or ENTER.
- `GetPixel`: each layer's walk mask is a total function from pixel to colour. Blank pixels read outside the raster count as open ground.
- Floating point: timers, accumulators and the countdown are exact reals, so float rounding in `60·elapsed` and in sums of frame times is not modelled. Positions are integers, so `std::round` is the identity.
- 32-bit wrap-around of `goal` and `collected`: counters are `nat`. `Session.FramePreservesInv` shows a counter always equals the number of its collectibles collected, which `Level.CollectedWithinPlaced` bounds by the number placed (20 eggs on the level, `Level.GoalIsEveryEgg`), so no wrap can happen.
- Unsigned arithmetic in `update_viewport`: `width - screen_width` is computed in `uint32_t` and converted back to `int`. It gives the same value as the plain integer difference the model uses.
- The null world before the first load: the model holds an all-zero `EmptyWorld` there. No handler reads it before INIT replaces it.
- Indeterminate flags of freshly built collectibles: INIT leaves `visible` and `collected` uninitialised. `Level.LoadedWorld` sets them to visible and uncollected. TITLE overwrites both before any play.
- Unused fields: the `CollectibleType` event and timing strings, `start_time`, `duration`, and `Layer::light_mask` are not read by any modelled logic. The background rasters and the player sprite are only drawn.
- `Movement.WellAuthored`: the source never bounds the layer index. The model requires this content contract on the masks instead of inventing a clamp.
- `main()` and window construction: fixed at 256×240, modelled as `Controller.ScreenWidth` and `Controller.ScreenHeight`.

=== FILE: clamp.dfy ===
/** The game's generic `clamp` helper. Every use of it in the game clamps a
    whole number (a pixel position, a viewport offset or the menu cursor), so
    it is modelled on `int`. */
module Clamping {

  /** Pins `v` into `[lo, hi]`: below `lo` gives `lo`, above `hi` gives `hi`,
      anything else is returned unchanged. */
  function Clamp(v: int, lo: int, hi: int): (r: int)
    ensures lo <= hi ==> lo <= r <= hi
    ensures lo <= v <= hi ==> r == v
    ensures r == v || r == lo || r == hi
  {
    if v < lo then lo else if v > hi then hi else v
  }

  function Distance(a: int, b: int): nat {
    if a <= b then b - a else a - b
  }

  /** Clamping picks the point of `[lo, hi]` nearest to `v`, and no other
      point of the interval is as near unless it is the result itself. */
  lemma ClampIsNearest(v: int, lo: int, hi: int, z: int)
    requires lo <= hi && lo <= z <= hi
    ensures Distance(Clamp(v, lo, hi), v) <= Distance(z, v)
    ensures Distance(z, v) == Distance(Clamp(v, lo, hi), v) ==> z == Clamp(v, lo, hi)
  {
  }

  /** Clamping preserves the order of its inputs. */
  lemma ClampMonotone(v: int, w: int, lo: int, hi: int)
    requires lo <= hi && v <= w
    ensures Clamp(v, lo, hi) <= Clamp(w, lo, hi)
  {
  }

  /** Clamping twice changes nothing more than clamping once. */
  lemma ClampIdempotent(v: int, lo: int, hi: int)
    requires lo <= hi
    ensures Clamp(Clamp(v, lo, hi), lo, hi) == Clamp(v, lo, hi)
  {
  }

  /** Clamping a value that lies on one side of a point of `[lo, hi]` leaves
      it between that point and where it was. */
  lemma ClampTowards(v: int, lo: int, hi: int, a: int)
    ensures lo <= a <= hi && a <= v ==> a <= Clamp(v, lo, hi) <= v
    ensures lo <= a <= hi && v <= a ==> v <= Clamp(v, lo, hi) <= a
  {
  }
}

=== FILE: collection.dfy ===
/** Collection and the objective: picking up the collectibles the player
    stands on, counting them per type, and deciding whether the goals are
    met. */
module Collection {
  import opened WorldModel

  /** The player at (`px`, `py`) is inside the inclusive hitbox of `c`, the
      size of its type's sprite. */
  predicate InHitbox(c: Collectible, t: CollectibleType, px: int, py: int) {
    c.x <= px <= c.x + t.spriteWidth && c.y <= py <= c.y + t.spriteHeight
  }

  /** How many collectibles of kind `k` are marked collected in `after` but
      were not in `before` (the two lists are the same collectibles). */
  function CountMarked(before: seq<Collectible>, after: seq<Collectible>, k: nat): nat
    requires |before| == |after|
  {
    if |before| == 0 then 0
    else
      (if !before[0].collected && after[0].collected && before[0].kind == k then 1 else 0)
      + CountMarked(before[1..], after[1..], k)
  }

  /** How many collectibles of kind `k` in `cs` are collected. */
  function CountCollected(cs: seq<Collectible>, k: nat): nat {
    if |cs| == 0 then 0
    else (if cs[0].collected && cs[0].kind == k then 1 else 0) + CountCollected(cs[1..], k)
  }

  /** The result of a collection pass: the collectibles with their new
      flags, and the types with their new counters. */
  datatype Pass = Pass(marked: seq<Collectible>, types: seq<CollectibleType>)

  /** The collection pass over the collectibles of the current layer, in
      list order: each one not yet collected whose hitbox holds the player is
      marked collected, and its type's counter goes up by one. */
  function CollectAll(cs: seq<Collectible>, types: seq<CollectibleType>, px: int, py: int)
    : (r: Pass)
    requires KindsValid(cs, |types|)
    ensures |r.marked| == |cs| && |r.types| == |types|
    ensures forall i | 0 <= i < |cs| :: r.marked[i] == cs[i].(collected := r.marked[i].collected)
    ensures forall i | 0 <= i < |cs| ::
              r.marked[i].collected <==> cs[i].collected || InHitbox(cs[i], types[cs[i].kind], px, py)
    ensures forall k | 0 <= k < |types| :: r.types[k] == types[k].(collected := r.types[k].collected)
    ensures forall k | 0 <= k < |types| :: r.types[k].collected == types[k].collected + CountMarked(cs, r.marked, k)
    decreases |cs|
  {
    if |cs| == 0 then Pass([], types)
    else
      var c := cs[0];
      var hit := !c.collected && InHitbox(c, types[c.kind], px, py);
      var rest := CollectAll(cs[1..], types, px, py);
      var marked := [if hit then c.(collected := true) else c] + rest.marked;
      assert marked[1..] == rest.marked;
      var counted :=
        if hit then rest.types[c.kind := rest.types[c.kind].(collected := rest.types[c.kind].collected + 1)]
        else rest.types;
      Pass(marked, counted)
  }

  /** Collecting again at the same spot finds nothing new: every collectible
      it could take is already taken. */
  lemma CollectIdempotent(cs: seq<Collectible>, types: seq<CollectibleType>, px: int, py: int)
    requires KindsValid(cs, |types|)
    ensures var r := CollectAll(cs, types, px, py);
      CollectAll(r.marked, r.types, px, py) == r
  {
    var r := CollectAll(cs, types, px, py);
    var r2 := CollectAll(r.marked, r.types, px, py);
    forall i | 0 <= i < |cs| ensures r2.marked[i] == r.marked[i] {
      var k := cs[i].kind;
      assert r.types[k] == types[k].(collected := r.types[k].collected);
      assert InHitbox(r.marked[i], r.types[k], px, py) == InHitbox(cs[i], types[k], px, py);
    }
    assert r2.marked == r.marked;
    forall k | 0 <= k < |types| ensures r2.types[k] == r.types[k] {
      NothingMarkedTwice(r.marked, k);
    }
    assert r2.types == r.types;
  }

  /** A list compared with itself has nothing newly marked. */
  lemma {:induction false} NothingMarkedTwice(cs: seq<Collectible>, k: nat)
    ensures CountMarked(cs, cs, k) == 0
  {
    if |cs| > 0 {
      NothingMarkedTwice(cs[1..], k);
    }
  }

  /** Marking collectibles raises the number collected by exactly the number
      newly marked, provided no flag reverts and no collectible changes
      kind. */
  lemma {:induction false} CountAfterMarking(before: seq<Collectible>, after: seq<Collectible>, k: nat)
    requires |before| == |after|
    requires forall i | 0 <= i < |before| ::
               after[i].kind == before[i].kind && (before[i].collected ==> after[i].collected)
    ensures CountCollected(after, k) == CountCollected(before, k) + CountMarked(before, after, k)
  {
    if |before| > 0 {
      CountAfterMarking(before[1..], after[1..], k);
    }
  }

  /** The collection step of a play frame on the world: one pass over the
      collectibles of the player's current layer. */
  function CollectStep(w: World): (r: World)
    requires 0 <= w.layer < |w.layers| && AllKindsValid(w)
    ensures r == w.(layers := r.layers, types := r.types)
    ensures OnlyMarks(w.layers, r.layers)
    ensures forall l | 0 <= l < |w.layers| && l != w.layer :: r.layers[l] == w.layers[l]
    ensures forall i | 0 <= i < |w.layers[w.layer].collectibles| ::
              var c := w.layers[w.layer].collectibles[i];
              r.layers[w.layer].collectibles[i].collected <==>
                c.collected || InHitbox(c, w.types[c.kind], w.x, w.y)
    ensures |r.types| == |w.types|
    ensures forall k | 0 <= k < |w.types| ::
              r.types[k] == w.types[k].(collected := w.types[k].collected +
                CountMarked(w.layers[w.layer].collectibles, r.layers[w.layer].collectibles, k))
    ensures AllKindsValid(r)
  {
    var pass := CollectAll(w.layers[w.layer].collectibles, w.types, w.x, w.y);
    w.(layers := w.layers[w.layer := Layer(pass.marked)], types := pass.types)
  }

  /** `after` holds the same collectibles as `before`; the only change
      allowed is a collected flag going from false to true. */
  ghost predicate OnlyMarks(before: seq<Layer>, after: seq<Layer>) {
    && |after| == |before|
    && (forall l | 0 <= l < |before| ::
          |after[l].collectibles| == |before[l].collectibles|)
    && (forall l, i | 0 <= l < |before| && 0 <= i < |before[l].collectibles| ::
          var b := before[l].collectibles[i];
          var a := after[l].collectibles[i];
          a == b.(collected := a.collected) && (b.collected ==> a.collected))
  }

  /** Number of collectibles of kind `k` marked collected over all layers. */
  function TotalCollected(layers: seq<Layer>, k: nat): nat {
    if |layers| == 0 then 0
    else CountCollected(layers[0].collectibles, k) + TotalCollected(layers[1..], k)
  }

  /** Each type's counter equals the number of its collectibles marked
      collected in the world. */
  ghost predicate CountersMatch(w: World) {
    forall k | 0 <= k < |w.types| :: w.types[k].collected == TotalCollected(w.layers, k)
  }

  lemma {:induction false} TotalAfterUpdate(layers: seq<Layer>, l: nat, replacement: Layer, k: nat)
    requires l < |layers|
    ensures TotalCollected(layers[l := replacement], k) + CountCollected(layers[l].collectibles, k)
              == TotalCollected(layers, k) + CountCollected(replacement.collectibles, k)
  {
    if l == 0 {
      assert layers[l := replacement][1..] == layers[1..];
    } else {
      TotalAfterUpdate(layers[1..], l - 1, replacement, k);
      assert layers[l := replacement][1..] == layers[1..][l - 1 := replacement];
    }
  }

  /** The collection step keeps every counter equal to the number of its
      collectibles collected, so a counter goes up by exactly the number of
      its collectibles newly marked. */
  lemma CollectStepKeepsCounters(w: World)
    requires 0 <= w.layer < |w.layers| && AllKindsValid(w)
    requires CountersMatch(w)
    ensures CountersMatch(CollectStep(w))
  {
    var r := CollectStep(w);
    var before := w.layers[w.layer].collectibles;
    var after := r.layers[w.layer].collectibles;
    assert r.layers == w.layers[w.layer := Layer(after)];
    forall k | 0 <= k < |r.types|
      ensures r.types[k].collected == TotalCollected(r.layers, k)
    {
      CountAfterMarking(before, after, k);
      TotalAfterUpdate(w.layers, w.layer, Layer(after), k);
    }
  }

  /** A world with no collectible collected counts zero of every kind. */
  lemma {:induction false} NothingCollectedCountsZero(layers: seq<Layer>, k: nat)
    requires forall l, i | 0 <= l < |layers| && 0 <= i < |layers[l].collectibles| ::
               !layers[l].collectibles[i].collected
    ensures TotalCollected(layers, k) == 0
  {
    if |layers| > 0 {
      NoneInLayer(layers[0].collectibles, k);
      NothingCollectedCountsZero(layers[1..], k);
    }
  }

  lemma {:induction false} NoneInLayer(cs: seq<Collectible>, k: nat)
    requires forall i | 0 <= i < |cs| :: !cs[i].collected
    ensures CountCollected(cs, k) == 0
  {
    if |cs| > 0 {
      NoneInLayer(cs[1..], k);
    }
  }

  /** The win test, as the loop over the types runs it: any type with a
      positive goal that has not reached it spoils the win. */
  function IsWon(types: seq<CollectibleType>): (won: bool)
    ensures won <==> forall k | 0 <= k < |types| ::
                       types[k].goal > 0 ==> types[k].collected >= types[k].goal
  {
    if |types| == 0 then true
    else !(0 < types[0].goal && types[0].collected < types[0].goal) && IsWon(types[1..])
  }

  /** A type with goal 0 never decides the win, whatever its count. */
  lemma UnscoredTypeIrrelevant(types: seq<CollectibleType>, k: nat, n: nat)
    requires k < |types| && types[k].goal == 0
    ensures IsWon(types[k := types[k].(collected := n)]) == IsWon(types)
  {
    var changed := types[k := types[k].(collected := n)];
    if IsWon(types) {
      forall j | 0 <= j < |changed| && changed[j].goal > 0
        ensures changed[j].collected >= changed[j].goal
      {
        assert changed[j] == types[j];
      }
    } else {
      var j :| 0 <= j < |types| && types[j].goal > 0 && types[j].collected < types[j].goal;
      assert changed[j] == types[j];
    }
  }
}

=== FILE: controller.dfy ===
/** The game-mode state machine: one handler per mode, each run once per
    frame, and the frame dispatcher that advances the mode-local timer and
    resets the per-mode state whenever the mode changes. */
module Controller {
  import opened Clamping
  import opened WorldModel
  import opened Movement
  import opened Collection
  import opened Level

  /** The game modes; `Play` is active play. */
  datatype Mode = Init | Credits | Title | Play | Won | Lost | Sleep | Pause | Exit

  /** The screen the game is constructed with, in pixels. */
  const ScreenWidth: nat := 256
  const ScreenHeight: nat := 240

  /** Where and how a session starts. */
  const SessionTime: real := 180.0
  const StartLayer: int := 1
  const StartX: int := 571
  const StartY: int := 459

  /** Idle time after which the menus give up, in seconds. */
  const IdleTimeout: real := 30.0
  const PauseTimeout: real := 300.0

  /** The end of each credits panel, as a running total of their lengths. */
  const EngineCreditsEnd: real := 3.0
  const Gap1End: real := EngineCreditsEnd + 1.0
  const CreatorCreditsEnd: real := Gap1End + 3.5
  const Gap2End: real := CreatorCreditsEnd + 1.0
  const GameJamCreditsEnd: real := Gap2End + 4.0
  const Gap3End: real := GameJamCreditsEnd + 1.0
  const TitleCreditsEnd: real := Gap3End + 5.0
  const Gap4End: real := TitleCreditsEnd + 1.5

  /** What one frame reads from the keyboard and the loader. `confirm` is
      SPACE or ENTER pressed, `upPressed`/`downPressed` an up (UP, W, K) or
      down (DOWN, S, J) key pressed this frame, `held` the direction keys
      held; `loadSucceeds` is whether loading every asset works if INIT
      tries it this frame. */
  datatype Input = Input(
    elapsed: real,
    loadSucceeds: bool,
    escape: bool,
    confirm: bool,
    upPressed: bool,
    downPressed: bool,
    held: Held)

  /** What the loaded rasters contribute: each layer's walk mask and the egg
      sprite's size. */
  datatype Assets = Assets(walkMasks: seq<Mask>, eggWidth: int, eggHeight: int)

  /** The controller: current mode, mode-local timer, the world, the two
      movement accumulators and the menu cursor. */
  datatype Game = Game(mode: Mode, timer: real, world: World, accX: real, accY: real, option: int)

  /** A handler's verdict: the mode it asks for and the state it leaves. */
  datatype Handled = Handled(next: Mode, game: Game)

  /** A frame either keeps the game loop running or stops it. */
  datatype Tick = Continue(game: Game) | Halt

  /** The state before the first frame: nothing loaded yet. */
  const EmptyWorld: World := World(0, 0, [], [], 0, 0, 0, 0.0, 0, 0)
  const StartGame: Game := Game(Init, 0.0, EmptyWorld, 0.0, 0.0, 0)

  /** Switches to mode `m`, clearing the timer, accumulators and cursor only
      when `m` is a different mode. */
  function UpdateState(g: Game, m: Mode): (r: Game)
    ensures r.mode == m && r.world == g.world
    ensures r == g <==> g.mode == m
    ensures g.mode != m ==> r.timer == 0.0 && r.accX == 0.0 && r.accY == 0.0 && r.option == 0
  {
    if g.mode != m then g.(mode := m, timer := 0.0, accX := 0.0, accY := 0.0, option := 0)
    else g
  }

  /** INIT: the first frame only shows the loading screen; every later
      frame in the mode builds the world and loads the assets, moving on to
      the credits only if all of them load. */
  function InitFrame(g: Game, loadSucceeds: bool, assets: Assets): (r: Handled)
    ensures g.timer == 0.0 ==> r == Handled(Init, g)
    ensures g.timer != 0.0 ==> r.game == g.(world := LoadedWorld(assets.eggWidth, assets.eggHeight))
    ensures g.timer != 0.0 ==> (r.next == Credits <==> loadSucceeds)
    ensures r.next == Credits || r.next == Init
  {
    if g.timer != 0.0 then
      var loaded := g.(world := LoadedWorld(assets.eggWidth, assets.eggHeight));
      if loadSucceeds then Handled(Credits, loaded) else Handled(Init, loaded)
    else Handled(Init, g)
  }

  /** The credits panels, in the order they are shown. */
  datatype Panel =
    | EngineCredits | Gap1 | CreatorCredits | Gap2 | GameJamCredits | Gap3
    | TitleCredits | Gap4 | CreditsOver

  /** The panel showing `timer` seconds into the credits. */
  function CreditsPanel(timer: real): (p: Panel)
    ensures p == CreditsOver <==> timer >= 20.0
    ensures timer < 3.0 ==> p == EngineCredits
  {
    if timer < EngineCreditsEnd then EngineCredits
    else if timer < Gap1End then Gap1
    else if timer < CreatorCreditsEnd then CreatorCredits
    else if timer < Gap2End then Gap2
    else if timer < GameJamCreditsEnd then GameJamCredits
    else if timer < Gap3End then Gap3
    else if timer < TitleCreditsEnd then TitleCredits
    else if timer < Gap4End then Gap4
    else CreditsOver
  }

  function PanelRank(p: Panel): nat {
    match p
    case EngineCredits => 0
    case Gap1 => 1
    case CreatorCredits => 2
    case Gap2 => 3
    case GameJamCredits => 4
    case Gap3 => 5
    case TitleCredits => 6
    case Gap4 => 7
    case CreditsOver => 8
  }

  /** The panels never go back: a later time shows the same panel or a
      later one. */
  lemma CreditsInOrder(t1: real, t2: real)
    requires t1 <= t2
    ensures PanelRank(CreditsPanel(t1)) <= PanelRank(CreditsPanel(t2))
  {
  }

  /** CREDITS: ESC skips to the title; otherwise the credits run until the
      last panel has ended. */
  function CreditsFrame(g: Game, escape: bool): (r: Handled)
    ensures r.game == g
    ensures r.next == Title <==> escape || g.timer >= 20.0
    ensures r.next == Credits <==> !escape && g.timer < 20.0
  {
    if escape then Handled(Title, g)
    else if CreditsPanel(g.timer) == CreditsOver then Handled(Title, g)
    else Handled(Credits, g)
  }

  /** The session reset the title screen performs on entry: full time, the
      start position on layer 1, the camera on it, every collectible back
      in place and every counter at zero. */
  function ResetSession(w: World): (r: World)
    ensures r.timeRemaining == SessionTime && r.layer == StartLayer
    ensures r.x == StartX && r.y == StartY
    ensures r.width == w.width && r.height == w.height
    ensures ScreenWidth <= w.width ==> 0 <= r.viewportX <= w.width - ScreenWidth
    ensures ScreenHeight <= w.height ==> 0 <= r.viewportY <= w.height - ScreenHeight
    ensures |r.layers| == |w.layers|
    ensures forall l | 0 <= l < |w.layers| ::
              |r.layers[l].collectibles| == |w.layers[l].collectibles|
    ensures forall l, i | 0 <= l < |w.layers| && 0 <= i < |w.layers[l].collectibles| ::
              r.layers[l].collectibles[i] ==
                w.layers[l].collectibles[i].(visible := true, collected := false)
    ensures |r.types| == |w.types|
    ensures forall k | 0 <= k < |w.types| :: r.types[k] == w.types[k].(collected := 0)
    ensures r == UpdateViewport(r, ScreenWidth, ScreenHeight)
  {
    var placed := w.(timeRemaining := SessionTime, layer := StartLayer, x := StartX, y := StartY);
    var framed := UpdateViewport(placed, ScreenWidth, ScreenHeight);
    framed.(
      layers := seq(|w.layers|, l requires 0 <= l < |w.layers| => ResetLayer(w.layers[l])),
      types := seq(|w.types|, k requires 0 <= k < |w.types| => w.types[k].(collected := 0)))
  }

  function ResetLayer(l: Layer): (r: Layer)
    ensures |r.collectibles| == |l.collectibles|
    ensures forall i | 0 <= i < |l.collectibles| ::
              r.collectibles[i] == l.collectibles[i].(visible := true, collected := false)
  {
    Layer(seq(|l.collectibles|, i requires 0 <= i < |l.collectibles| =>
      l.collectibles[i].(visible := true, collected := false)))
  }

  /** The two-entry menu cursor after this frame's up and down presses:
      up selects the first entry, down the second, both or neither leave it
      where it was. */
  function MoveCursor(option: int, up: bool, down: bool): (o: int)
    ensures 0 <= o <= 1
    ensures 0 <= option <= 1 ==>
              o == (if down && !up then 1 else if up && !down then 0 else option)
  {
    var moved := option - (if up then 1 else 0) + (if down then 1 else 0);
    Clamp(moved, 0, 1)
  }

  /** TITLE: on entry (timer 0) reset the session; confirm acts on the
      cursor as it was before this frame's input (0 starts play, 1 exits);
      otherwise move the cursor, and fall asleep on ESC or after 30 idle
      seconds. */
  function TitleFrame(g: Game, input: Input): (r: Handled)
    ensures r.game == g.(world := r.game.world, option := r.game.option)
    ensures r.game.world == (if g.timer == 0.0 then ResetSession(g.world) else g.world)
    ensures 0 <= r.game.option <= 1
    ensures input.confirm && g.option == 0 ==> r.next == Play
    ensures input.confirm && g.option == 1 ==> r.next == Exit
    ensures !(input.confirm && 0 <= g.option <= 1) ==>
              r.game.option == MoveCursor(g.option, input.upPressed, input.downPressed) &&
              (r.next == Sleep <==> input.escape || g.timer > IdleTimeout) &&
              (r.next == Title <==> !input.escape && g.timer <= IdleTimeout)
  {
    var g1 := if g.timer == 0.0 then g.(world := ResetSession(g.world)) else g;
    if input.confirm && g1.option == 0 then Handled(Play, g1)
    else if input.confirm && g1.option == 1 then Handled(Exit, g1)
    else
      var g2 := g1.(option := MoveCursor(g1.option, input.upPressed, input.downPressed));
      if g.timer > IdleTimeout || input.escape then Handled(Sleep, g2) else Handled(Title, g2)
  }

  /** The world is fit for a play frame: one walk mask per layer, the
      current layer a valid index, every collectible of a known type. */
  predicate PlayReady(w: World, masks: seq<Mask>) {
    |w.layers| == |masks| && 0 <= w.layer < |w.layers| && AllKindsValid(w)
  }

  /** Where the player of `w` stands, with the two axis accumulators. */
  function Pose(w: World, accX: real, accY: real): Motion {
    Motion(Walker(w.x, w.y, w.layer), accX, accY)
  }

  /** The world after movement and collection, with the two new axis
      accumulators. */
  datatype Advanced = Advanced(world: World, accX: real, accY: real)

  /** The first half of a play frame: move the player, then collect on the
      layer the player ends up on, at the position the player ends up at. */
  function MoveAndCollect(w: World, accX: real, accY: real, held: Held, elapsed: real, masks: seq<Mask>)
    : (r: Advanced)
    requires WellAuthored(masks) && PlayReady(w, masks)
    ensures PlayReady(r.world, masks)
    ensures OnlyMarks(w.layers, r.world.layers)
    ensures r.world == w.(x := r.world.x, y := r.world.y, layer := r.world.layer,
                          layers := r.world.layers, types := r.world.types)
    ensures 0 <= w.width ==> 0 <= r.world.x <= w.width
    ensures 0 <= w.height ==> 0 <= r.world.y <= w.height
    ensures 0.0 <= elapsed && -1.0 < accX < 1.0 && -1.0 < accY < 1.0 ==>
              -1.0 < r.accX < 1.0 && -1.0 < r.accY < 1.0
    ensures forall l | 0 <= l < |w.layers| && l != r.world.layer :: r.world.layers[l] == w.layers[l]
    ensures forall i | 0 <= i < |w.layers[r.world.layer].collectibles| ::
              var c := w.layers[r.world.layer].collectibles[i];
              r.world.layers[r.world.layer].collectibles[i].collected <==>
                c.collected || InHitbox(c, w.types[c.kind], r.world.x, r.world.y)
    ensures |r.world.types| == |w.types|
    ensures forall k | 0 <= k < |w.types| ::
              r.world.types[k] == w.types[k].(collected := w.types[k].collected +
                CountMarked(w.layers[r.world.layer].collectibles, r.world.layers[r.world.layer].collectibles, k))
    ensures MotionPaid(held, Pose(w, accX, accY), elapsed, w.width, w.height, Pose(r.world, r.accX, r.accY))
  {
    var m := Move(masks, Pose(w, accX, accY), held, elapsed, w.width, w.height);
    var moved := w.(x := m.p.x, y := m.p.y, layer := m.p.layer);
    Advanced(CollectStep(moved), m.accX, m.accY)
  }

  /** The outcome of a play frame and the world it leaves. */
  datatype Settled = Settled(next: Mode, world: World)

  /** The second half of a play frame: check the goals; while not won, run
      the clock down and lose when it reaches zero; recentre the camera
      unless the frame is lost. */
  function Settle(w: World, elapsed: real): (r: Settled)
    ensures r.world == w.(timeRemaining := r.world.timeRemaining,
                          viewportX := r.world.viewportX, viewportY := r.world.viewportY)
    ensures && r.world.layers == w.layers && r.world.layer == w.layer && r.world.types == w.types
            && r.world.x == w.x && r.world.y == w.y
            && r.world.width == w.width && r.world.height == w.height
    ensures r.next == Play || r.next == Won || r.next == Lost
    ensures r.next == Won <==> IsWon(w.types)
    ensures r.next == Won ==> r.world.timeRemaining == w.timeRemaining
    ensures r.next != Won ==>
              r.world.timeRemaining == w.timeRemaining - elapsed &&
              (r.next == Lost <==> r.world.timeRemaining <= 0.0)
    ensures r.next == Lost ==> r.world.viewportX == w.viewportX && r.world.viewportY == w.viewportY
    ensures ScreenWidth <= w.width && r.next != Lost ==> 0 <= r.world.viewportX <= w.width - ScreenWidth
    ensures ScreenHeight <= w.height && r.next != Lost ==> 0 <= r.world.viewportY <= w.height - ScreenHeight
    ensures r.next != Lost ==> r.world == UpdateViewport(r.world, ScreenWidth, ScreenHeight)
  {
    if IsWon(w.types) then Settled(Won, UpdateViewport(w, ScreenWidth, ScreenHeight))
    else
      var ticked := w.(timeRemaining := w.timeRemaining - elapsed);
      if ticked.timeRemaining <= 0.0 then Settled(Lost, ticked)
      else Settled(Play, UpdateViewport(ticked, ScreenWidth, ScreenHeight))
  }

  /** A MAIN frame without ESC: move and collect, then settle the frame's
      outcome. */
  function PlayStep(g: Game, input: Input, masks: seq<Mask>): (r: Handled)
    requires WellAuthored(masks) && PlayReady(g.world, masks)
    ensures r.game.mode == g.mode && r.game.timer == g.timer && r.game.option == g.option
    ensures r.next == Play || r.next == Won || r.next == Lost
    ensures PlayReady(r.game.world, masks)
    ensures OnlyMarks(g.world.layers, r.game.world.layers)
    ensures r.game.world.width == g.world.width && r.game.world.height == g.world.height
    ensures 0 <= g.world.x <= g.world.width && 0 <= g.world.y <= g.world.height ==>
              0 <= r.game.world.x <= r.game.world.width && 0 <= r.game.world.y <= r.game.world.height
    ensures 0.0 <= input.elapsed && -1.0 < g.accX < 1.0 && -1.0 < g.accY < 1.0 ==>
              -1.0 < r.game.accX < 1.0 && -1.0 < r.game.accY < 1.0
    ensures |r.game.world.types| == |g.world.types|
    ensures forall k | 0 <= k < |g.world.types| ::
              r.game.world.types[k].goal == g.world.types[k].goal &&
              r.game.world.types[k].collected >= g.world.types[k].collected
    ensures r.next == Won <==> IsWon(r.game.world.types)
    ensures r.next == Won ==> r.game.world.timeRemaining == g.world.timeRemaining
    ensures r.next != Won ==>
              r.game.world.timeRemaining == g.world.timeRemaining - input.elapsed &&
              (r.next == Lost <==> r.game.world.timeRemaining <= 0.0)
    ensures forall i | 0 <= i < |g.world.layers[r.game.world.layer].collectibles| ::
              var c := g.world.layers[r.game.world.layer].collectibles[i];
              r.game.world.layers[r.game.world.layer].collectibles[i].collected <==>
                c.collected || InHitbox(c, g.world.types[c.kind], r.game.world.x, r.game.world.y)
    ensures r.next != Lost ==> r.game.world == UpdateViewport(r.game.world, ScreenWidth, ScreenHeight)
    ensures r.next == Lost ==>
              r.game.world.viewportX == g.world.viewportX && r.game.world.viewportY == g.world.viewportY
    ensures MotionPaid(input.held, Pose(g.world, g.accX, g.accY), input.elapsed, g.world.width, g.world.height,
                       Pose(r.game.world, r.game.accX, r.game.accY))
  {
    var advanced := MoveAndCollect(g.world, g.accX, g.accY, input.held, input.elapsed, masks);
    var settled := Settle(advanced.world, input.elapsed);
    Handled(settled.next, g.(world := settled.world, accX := advanced.accX, accY := advanced.accY))
  }

  /** MAIN: ESC pauses before anything moves; otherwise a play step. */
  function PlayFrame(g: Game, input: Input, masks: seq<Mask>): (r: Handled)
    requires WellAuthored(masks) && PlayReady(g.world, masks)
    ensures r.game.mode == g.mode && r.game.timer == g.timer && r.game.option == g.option
    ensures input.escape ==> r == Handled(Pause, g)
    ensures !input.escape ==> r.next == Play || r.next == Won || r.next == Lost
    ensures PlayReady(r.game.world, masks)
    ensures OnlyMarks(g.world.layers, r.game.world.layers)
    ensures r.game.world.width == g.world.width && r.game.world.height == g.world.height
    ensures 0 <= g.world.x <= g.world.width && 0 <= g.world.y <= g.world.height ==>
              0 <= r.game.world.x <= r.game.world.width && 0 <= r.game.world.y <= r.game.world.height
    ensures 0.0 <= input.elapsed && -1.0 < g.accX < 1.0 && -1.0 < g.accY < 1.0 ==>
              -1.0 < r.game.accX < 1.0 && -1.0 < r.game.accY < 1.0
    ensures |r.game.world.types| == |g.world.types|
    ensures forall k | 0 <= k < |g.world.types| ::
              r.game.world.types[k].goal == g.world.types[k].goal &&
              r.game.world.types[k].collected >= g.world.types[k].collected
    ensures !input.escape ==> (r.next == Won <==> IsWon(r.game.world.types))
    ensures !input.escape && r.next == Won ==> r.game.world.timeRemaining == g.world.timeRemaining
    ensures !input.escape && r.next != Won ==>
              r.game.world.timeRemaining == g.world.timeRemaining - input.elapsed &&
              (r.next == Lost <==> r.game.world.timeRemaining <= 0.0)
    ensures !input.escape ==>
              forall i | 0 <= i < |g.world.layers[r.game.world.layer].collectibles| ::
                var c := g.world.layers[r.game.world.layer].collectibles[i];
                r.game.world.layers[r.game.world.layer].collectibles[i].collected <==>
                  c.collected || InHitbox(c, g.world.types[c.kind], r.game.world.x, r.game.world.y)
    ensures !input.escape && r.next != Lost ==>
              r.game.world == UpdateViewport(r.game.world, ScreenWidth, ScreenHeight)
    ensures !input.escape && r.next == Lost ==>
              r.game.world.viewportX == g.world.viewportX && r.game.world.viewportY == g.world.viewportY
    ensures ScreenWidth <= g.world.width && 0 <= g.world.viewportX <= g.world.width - ScreenWidth ==>
              0 <= r.game.world.viewportX <= r.game.world.width - ScreenWidth
    ensures ScreenHeight <= g.world.height && 0 <= g.world.viewportY <= g.world.height - ScreenHeight ==>
              0 <= r.game.world.viewportY <= r.game.world.height - ScreenHeight
    ensures !input.escape ==>
              MotionPaid(input.held, Pose(g.world, g.accX, g.accY), input.elapsed, g.world.width, g.world.height,
                         Pose(r.game.world, r.game.accX, r.game.accY))
  {
    if input.escape then Handled(Pause, g) else PlayStep(g, input, masks)
  }

  /** WON and LOST (the two handlers are the same apart from the message
      they show): confirm returns to the title, 30 idle seconds to the
      attract screen. */
  function OutcomeFrame(g: Game, confirm: bool): (r: Handled)
    requires g.mode == Won || g.mode == Lost
    ensures r.game == g
    ensures r.next == Title <==> confirm
    ensures r.next == Sleep <==> !confirm && g.timer > IdleTimeout
    ensures r.next == g.mode <==> !confirm && g.timer <= IdleTimeout
  {
    if confirm then Handled(Title, g)
    else if g.timer > IdleTimeout then Handled(Sleep, g)
    else Handled(g.mode, g)
  }

  /** SLEEP: any of ESC, SPACE or ENTER wakes the game into the credits. */
  function SleepFrame(g: Game, input: Input): (r: Handled)
    ensures r.game == g
    ensures r.next == Credits <==> input.escape || input.confirm
    ensures r.next == Sleep <==> !input.escape && !input.confirm
  {
    if input.escape || input.confirm then Handled(Credits, g) else Handled(Sleep, g)
  }

  /** PAUSE: ESC or confirm acts on the cursor as it was before this
      frame's input (0 resumes, 1 quits to the title); otherwise move the
      cursor, and give up to the title after 300 idle seconds. */
  function PauseFrame(g: Game, input: Input): (r: Handled)
    ensures r.game == g.(option := r.game.option)
    ensures 0 <= r.game.option <= 1
    ensures (input.escape || input.confirm) && g.option == 0 ==> r.next == Play
    ensures (input.escape || input.confirm) && g.option == 1 ==> r.next == Title
    ensures !((input.escape || input.confirm) && 0 <= g.option <= 1) ==>
              r.game.option == MoveCursor(g.option, input.upPressed, input.downPressed) &&
              (r.next == Title <==> g.timer > PauseTimeout) &&
              (r.next == Pause <==> g.timer <= PauseTimeout)
  {
    if (input.escape || input.confirm) && g.option == 0 then Handled(Play, g)
    else if (input.escape || input.confirm) && g.option == 1 then Handled(Title, g)
    else
      var g1 := g.(option := MoveCursor(g.option, input.upPressed, input.downPressed));
      if g.timer > PauseTimeout then Handled(Title, g1) else Handled(Pause, g1)
  }

  /** What a frame needs of the game: only a play frame reads the walk
      masks and indexes the layers. */
  ghost predicate FrameReady(g: Game, assets: Assets) {
    g.mode == Play ==> WellAuthored(assets.walkMasks) && PlayReady(g.world, assets.walkMasks)
  }

  /** The handler of the current mode (every mode but EXIT has one). */
  function Handle(g: Game, input: Input, assets: Assets): (r: Handled)
    requires g.mode != Exit
    requires FrameReady(g, assets)
    ensures r.game.mode == g.mode && r.game.timer == g.timer
  {
    match g.mode
    case Init => InitFrame(g, input.loadSucceeds, assets)
    case Credits => CreditsFrame(g, input.escape)
    case Title => TitleFrame(g, input)
    case Play => PlayFrame(g, input, assets.walkMasks)
    case Won => OutcomeFrame(g, input.confirm)
    case Lost => OutcomeFrame(g, input.confirm)
    case Sleep => SleepFrame(g, input)
    case Pause => PauseFrame(g, input)
  }

  /** One frame: EXIT stops the loop untouched; any other mode runs its
      handler, the elapsed time is added to the timer, and then the mode the
      handler asked for is applied (which clears the timer again on a
      change). */
  function Frame(g: Game, input: Input, assets: Assets): (r: Tick)
    requires FrameReady(g, assets)
    ensures r.Halt? <==> g.mode == Exit
    ensures r.Continue? ==> r.game.mode == Handle(g, input, assets).next
    ensures r.Continue? ==> r.game.world == Handle(g, input, assets).game.world
    ensures r.Continue? && r.game.mode == g.mode ==>
              r.game == Handle(g, input, assets).game.(timer := g.timer + input.elapsed)
    ensures r.Continue? && r.game.mode != g.mode ==>
              r.game.timer == 0.0 && r.game.accX == 0.0 && r.game.accY == 0.0 && r.game.option == 0
  {
    if g.mode == Exit then Halt
    else
      var h := Handle(g, input, assets);
      Continue(UpdateState(h.game.(timer := h.game.timer + input.elapsed), h.next))
  }
}

=== FILE: level.dfy ===
/** The world INIT builds: a 1024×720 map of four layers and one scored
    collectible type, "Eggs", with its placements per layer. The rasters
    themselves are assets; only the egg sprite's size is needed here, as the
    eggs' hitbox. */
module Level {
  import opened WorldModel
  import opened Collection

  const WorldWidth: int := 1024
  const WorldHeight: int := 720

  /** Number of eggs the player must collect. */
  const EggGoal: nat := 20

  /** Index of the egg type in the world's type list. */
  const EggKind: nat := 0

  const Layer0Eggs: seq<(int, int)> :=
    [(295, 335), (406, 267), (442, 255), (478, 307), (498, 243),
     (513, 161), (560, 288), (592, 312), (594, 221)]
  const Layer1Eggs: seq<(int, int)> :=
    [(95, 495), (130, 425), (525, 350), (578, 440), (1004, 470)]
  const Layer2Eggs: seq<(int, int)> :=
    [(160, 620), (200, 585), (440, 554), (535, 655), (739, 647), (1004, 637)]
  const Layer3Eggs: seq<(int, int)> := []

  /** One layer holding an egg at each of `coords`, in order. */
  function EggLayer(coords: seq<(int, int)>): (l: Layer)
    ensures |l.collectibles| == |coords|
    ensures forall i | 0 <= i < |coords| ::
              l.collectibles[i] == Collectible(coords[i].0, coords[i].1, EggKind, true, false)
  {
    Layer(seq(|coords|, i requires 0 <= i < |coords| =>
      Collectible(coords[i].0, coords[i].1, EggKind, true, false)))
  }

  /** The world as INIT leaves it: layers and types in place, and every
      other field zero, as the freshly allocated world holds it until the
      title screen starts a session. */
  function LoadedWorld(eggWidth: int, eggHeight: int): (w: World)
    ensures w.width == WorldWidth && w.height == WorldHeight
    ensures |w.layers| == 4 && |w.types| == 1
    ensures w.types[EggKind] == CollectibleType("Eggs", EggGoal, 0, eggWidth, eggHeight)
    ensures AllKindsValid(w)
    ensures forall l, i | 0 <= l < |w.layers| && 0 <= i < |w.layers[l].collectibles| ::
              !w.layers[l].collectibles[i].collected
    ensures w.x == 0 && w.y == 0 && w.layer == 0 && w.viewportX == 0 && w.viewportY == 0
  {
    var eggs := CollectibleType("Eggs", EggGoal, 0, eggWidth, eggHeight);
    World(WorldWidth, WorldHeight,
          [EggLayer(Layer0Eggs), EggLayer(Layer1Eggs), EggLayer(Layer2Eggs), EggLayer(Layer3Eggs)],
          [eggs], 0, 0, 0, 0.0, 0, 0)
  }

  /** Number of collectibles of kind `k` over all layers, collected or not. */
  function PlacedOfKind(layers: seq<Layer>, k: nat): nat {
    if |layers| == 0 then 0
    else CountKind(layers[0].collectibles, k) + PlacedOfKind(layers[1..], k)
  }

  function CountKind(cs: seq<Collectible>, k: nat): nat {
    if |cs| == 0 then 0 else (if cs[0].kind == k then 1 else 0) + CountKind(cs[1..], k)
  }

  /** The level places exactly as many eggs as the goal asks for, so a win
      needs every egg on every layer. */
  lemma GoalIsEveryEgg(eggWidth: int, eggHeight: int)
    ensures var w := LoadedWorld(eggWidth, eggHeight);
      PlacedOfKind(w.layers, EggKind) == w.types[EggKind].goal
    ensures var w := LoadedWorld(eggWidth, eggHeight);
      && CountKind(w.layers[0].collectibles, EggKind) == 9
      && CountKind(w.layers[1].collectibles, EggKind) == 5
      && CountKind(w.layers[2].collectibles, EggKind) == 6
      && CountKind(w.layers[3].collectibles, EggKind) == 0
  {
    var w := LoadedWorld(eggWidth, eggHeight);
    EveryEggCounts(Layer0Eggs);
    EveryEggCounts(Layer1Eggs);
    EveryEggCounts(Layer2Eggs);
    EveryEggCounts(Layer3Eggs);
    var ls := w.layers;
    assert ls[1..] == [EggLayer(Layer1Eggs), EggLayer(Layer2Eggs), EggLayer(Layer3Eggs)];
    assert ls[1..][1..] == [EggLayer(Layer2Eggs), EggLayer(Layer3Eggs)];
    assert ls[1..][1..][1..] == [EggLayer(Layer3Eggs)];
    assert ls[1..][1..][1..][1..] == [];
    assert PlacedOfKind(ls[1..][1..][1..], EggKind) == 0;
    assert PlacedOfKind(ls[1..][1..], EggKind) == |Layer2Eggs|;
    assert PlacedOfKind(ls[1..], EggKind) == |Layer1Eggs| + |Layer2Eggs|;
  }

  lemma {:induction false} EveryEggCounts(coords: seq<(int, int)>)
    ensures CountKind(EggLayer(coords).collectibles, EggKind) == |coords|
  {
    if |coords| > 0 {
      EveryEggCounts(coords[1..]);
      assert EggLayer(coords).collectibles[1..] == EggLayer(coords[1..]).collectibles;
    }
  }

  /** No more collectibles of a kind can be collected than are placed. */
  lemma {:induction false} CollectedWithinPlaced(layers: seq<Layer>, k: nat)
    ensures TotalCollected(layers, k) <= PlacedOfKind(layers, k)
  {
    if |layers| > 0 {
      CollectedWithinKind(layers[0].collectibles, k);
      CollectedWithinPlaced(layers[1..], k);
    }
  }

  lemma {:induction false} CollectedWithinKind(cs: seq<Collectible>, k: nat)
    ensures CountCollected(cs, k) <= CountKind(cs, k)
  {
    if |cs| > 0 {
      CollectedWithinKind(cs[1..], k);
    }
  }

  /** When as many collectibles of kind `k` are collected as are placed,
      every one of them is collected. */
  lemma {:induction false} AllPlacedCollected(layers: seq<Layer>, k: nat)
    requires TotalCollected(layers, k) == PlacedOfKind(layers, k)
    ensures forall l, i | 0 <= l < |layers| && 0 <= i < |layers[l].collectibles| ::
              layers[l].collectibles[i].kind == k ==> layers[l].collectibles[i].collected
  {
    if |layers| > 0 {
      CollectedWithinKind(layers[0].collectibles, k);
      CollectedWithinPlaced(layers[1..], k);
      AllOfKindCollected(layers[0].collectibles, k);
      AllPlacedCollected(layers[1..], k);
      forall l, i | 0 <= l < |layers| && 0 <= i < |layers[l].collectibles| &&
                    layers[l].collectibles[i].kind == k
        ensures layers[l].collectibles[i].collected
      {
        if l > 0 {
          assert layers[l] == layers[1..][l - 1];
        }
      }
    }
  }

  lemma {:induction false} AllOfKindCollected(cs: seq<Collectible>, k: nat)
    requires CountCollected(cs, k) == CountKind(cs, k)
    ensures forall i | 0 <= i < |cs| :: cs[i].kind == k ==> cs[i].collected
  {
    if |cs| > 0 {
      CollectedWithinKind(cs[1..], k);
      AllOfKindCollected(cs[1..], k);
      forall i | 0 <= i < |cs| && cs[i].kind == k ensures cs[i].collected {
        if i > 0 {
          assert cs[i] == cs[1..][i - 1];
        }
      }
    }
  }

  /** In a world whose egg counter is consistent and whose placed eggs
      number exactly the goal (as the level's do), a win means every egg on
      every layer has been collected. */
  lemma WinNeedsEveryEgg(w: World)
    requires CountersMatch(w) && EggKind < |w.types|
    requires 0 < w.types[EggKind].goal == PlacedOfKind(w.layers, EggKind)
    requires IsWon(w.types)
    ensures forall l, i | 0 <= l < |w.layers| && 0 <= i < |w.layers[l].collectibles| ::
              w.layers[l].collectibles[i].kind == EggKind ==> w.layers[l].collectibles[i].collected
  {
    CollectedWithinPlaced(w.layers, EggKind);
    AllPlacedCollected(w.layers, EggKind);
  }
}

=== FILE: movement.dfy ===
/** The collision and movement engine of active play: held direction keys
    bank sub-pixel movement in a per-axis accumulator, which is then drained
    one whole pixel at a time, each pixel consulting the current layer's walk
    mask one pixel ahead. */
module Movement {
  import opened Clamping
  import opened WorldModel

  /** Player speed in pixels per second. */
  const PlayerSpeed: real := 60.0

  /** The four direction blocks, in the order the frame runs them. */
  datatype Dir = Up | Down | Left | Right

  function DX(d: Dir): int {
    match d
    case Left => -1
    case Right => 1
    case _ => 0
  }

  function DY(d: Dir): int {
    match d
    case Up => -1
    case Down => 1
    case _ => 0
  }

  /** The player's whole-pixel position and current layer index. */
  datatype Walker = Walker(x: int, y: int, layer: int)

  /** How far `q` lies beyond `p` in the direction of travel `d`. */
  function Progress(p: Walker, q: Walker, d: Dir): int {
    match d
    case Up => p.y - q.y
    case Down => q.y - p.y
    case Left => p.x - q.x
    case Right => q.x - p.x
  }

  /** `q` differs from `p` at most along the axis of `d`: the perpendicular
      coordinate is the same. */
  predicate OnAxis(p: Walker, q: Walker, d: Dir) {
    if d == Up || d == Down then q.x == p.x else q.y == p.y
  }

  /** The content contract on the walk masks that keeps the (never checked)
      layer index in range: no descend pixel on the bottom layer and no
      ascend pixel on the top one. */
  ghost predicate WellAuthored(masks: seq<Mask>) {
    forall i, x, y | 0 <= i < |masks| ::
      (masks[i](x, y) == Blue ==> 0 < i) && (masks[i](x, y) == Yellow ==> i < |masks| - 1)
  }

  /** The colour of the current layer's mask one pixel ahead of `p`. */
  function Ahead(masks: seq<Mask>, p: Walker, d: Dir): Color
    requires 0 <= p.layer < |masks|
  {
    masks[p.layer](p.x + DX(d), p.y + DY(d))
  }

  /** One drained pixel, given the colour `c` found one pixel ahead. */
  function PixelStep(p: Walker, d: Dir, c: Color): (r: Walker)
    ensures c == Black ==> r == p
    ensures c != Black ==> Progress(p, r, d) == 1
    ensures OnAxis(p, r, d)
    ensures c == Blue ==> r.layer == p.layer - 1
    ensures c == Yellow ==> r.layer == p.layer + 1
    ensures c == Other || c == Black ==> r.layer == p.layer
  {
    var next := Walker(p.x + DX(d), p.y + DY(d), p.layer);
    match c
    case Blue => next.(layer := p.layer - 1)
    case Yellow => next.(layer := p.layer + 1)
    case Black => p
    case Other => next
  }

  /** The number of whole pixels a banked amount `t` pays for. */
  function Iterations(t: real): nat {
    if t < 1.0 then 0 else t.Floor
  }

  /** The coordinate of `p` on the axis of `d`. */
  function Coord(p: Walker, d: Dir): int {
    if d == Up || d == Down then p.y else p.x
  }

  /** Where a block leaves the player, and what is left in the block's
      accumulator. */
  datatype Leg = Leg(p: Walker, acc: real)

  /** The drain loop of one direction block. `t` is the block's accumulator
      measured in the direction of travel; every iteration takes exactly 1
      off it and samples the mask once, until less than a pixel is left. */
  function Drain(masks: seq<Mask>, p: Walker, d: Dir, t: real): (r: Leg)
    requires WellAuthored(masks) && 0 <= p.layer < |masks|
    ensures 0 <= r.p.layer < |masks|
    ensures r.acc == t - Iterations(t) as real
    ensures r.acc < 1.0
    ensures OnAxis(p, r.p, d)
    ensures 0 <= Progress(p, r.p, d) <= Iterations(t)
    ensures -(Iterations(t) as int) <= r.p.layer - p.layer <= Iterations(t)
    decreases Iterations(t)
  {
    if t < 1.0 then Leg(p, t)
    else
      var q := PixelStep(p, d, Ahead(masks, p, d));
      Drain(masks, q, d, t - 1.0)
  }

  /** `v` seen in the direction of travel: Up and Left count negative
      accumulator values as progress. */
  function Oriented(d: Dir, v: real): real {
    if d == Up || d == Left then -v else v
  }

  /** One direction block: when the key is held, bank `step` pixels in the
      axis accumulator `acc` and drain it. Returns the new position and the
      new value of `acc`. */
  function Block(masks: seq<Mask>, p: Walker, d: Dir, held: bool, acc: real, step: real): (r: Leg)
    requires WellAuthored(masks) && 0 <= p.layer < |masks|
    ensures 0 <= r.p.layer < |masks|
    ensures OnAxis(p, r.p, d)
    ensures !held ==> r == Leg(p, acc)
    ensures held ==> var banked := Oriented(d, acc) + step;
      Oriented(d, r.acc) == banked - Iterations(banked) as real &&
      0 <= Progress(p, r.p, d) <= Iterations(banked)
    ensures 0.0 <= step && -1.0 < acc < 1.0 ==> -1.0 < r.acc < 1.0
    ensures held && (d == Down || d == Right) ==> var b := acc + step;
              && r.acc == b - Iterations(b) as real
              && Coord(p, d) <= Coord(r.p, d) <= Coord(p, d) + Iterations(b)
    ensures held && (d == Up || d == Left) ==> var b := -acc + step;
              && r.acc == -(b - Iterations(b) as real)
              && Coord(p, d) - Iterations(b) <= Coord(r.p, d) <= Coord(p, d)
  {
    if !held then Leg(p, acc)
    else
      var drained := Drain(masks, p, d, Oriented(d, acc) + step);
      Leg(drained.p, Oriented(d, drained.acc))
  }

  /** The four direction keys as held during this frame. */
  datatype Held = Held(up: bool, down: bool, left: bool, right: bool)

  /** The movement state of play: position and layer plus the two axis
      accumulators. */
  datatype Motion = Motion(p: Walker, accX: real, accY: real)

  /** The accumulator rule of one axis, whose keys are `back` (up or left)
      and `fwd` (down or right): with no key held the accumulator is kept;
      with one key held, `step` is banked on top of it, signed toward that
      key, and only the fraction below one pixel is kept. */
  predicate AccumulatorPaid(heldBack: bool, heldFwd: bool, acc: real, step: real, after: real) {
    && (!heldBack && !heldFwd ==> after == acc)
    && (heldFwd && !heldBack ==> var b := acc + step; after == b - Iterations(b) as real)
    && (heldBack && !heldFwd ==> var b := -acc + step; after == -(b - Iterations(b) as real))
  }

  /** The position rule of one axis: with no key held the coordinate `from`
      is kept; with one key held it moves toward that key by at most the
      whole pixels banked. */
  predicate CoordinatePaid(heldBack: bool, heldFwd: bool, acc: real, step: real, from: int, to: int) {
    && (!heldBack && !heldFwd ==> to == from)
    && (heldFwd && !heldBack ==> from <= to <= from + Iterations(acc + step))
    && (heldBack && !heldFwd ==> from - Iterations(-acc + step) <= to <= from)
  }

  /** The movement rule of one frame, both axes together: `m` is where the
      player stands with its accumulators before the frame, `r` after it. */
  predicate MotionPaid(held: Held, m: Motion, elapsed: real, width: int, height: int, r: Motion) {
    && AccumulatorPaid(held.left, held.right, m.accX, PlayerSpeed * elapsed, r.accX)
    && AccumulatorPaid(held.up, held.down, m.accY, PlayerSpeed * elapsed, r.accY)
    && (0 <= m.p.x <= width ==> CoordinatePaid(held.left, held.right, m.accX, PlayerSpeed * elapsed, m.p.x, r.p.x))
    && (0 <= m.p.y <= height ==> CoordinatePaid(held.up, held.down, m.accY, PlayerSpeed * elapsed, m.p.y, r.p.y))
  }

  /** The two blocks of one axis, `back` then `fwd` (up then down, or left
      then right), sharing the axis accumulator `acc`. */
  function AxisPass(masks: seq<Mask>, p: Walker, back: Dir, fwd: Dir, heldBack: bool, heldFwd: bool,
                    acc: real, step: real): (r: Leg)
    requires WellAuthored(masks) && 0 <= p.layer < |masks|
    requires (back == Up && fwd == Down) || (back == Left && fwd == Right)
    ensures 0 <= r.p.layer < |masks|
    ensures OnAxis(p, r.p, fwd)
    ensures 0.0 <= step && -1.0 < acc < 1.0 ==> -1.0 < r.acc < 1.0
    ensures !heldBack && !heldFwd ==> r == Leg(p, acc)
    ensures AccumulatorPaid(heldBack, heldFwd, acc, step, r.acc)
    ensures CoordinatePaid(heldBack, heldFwd, acc, step, Coord(p, fwd), Coord(r.p, fwd))
  {
    var first := Block(masks, p, back, heldBack, acc, step);
    Block(masks, first.p, fwd, heldFwd, first.acc, step)
  }

  /** Clamping into a range that holds the starting coordinate keeps the
      position rule. */
  lemma ClampKeepsPaid(heldBack: bool, heldFwd: bool, acc: real, step: real, from: int, to: int, hi: int)
    ensures 0 <= from <= hi && CoordinatePaid(heldBack, heldFwd, acc, step, from, to) ==>
              CoordinatePaid(heldBack, heldFwd, acc, step, from, Clamp(to, 0, hi))
  {
    ClampTowards(to, 0, hi, from);
  }

  /** A whole movement phase: the up, down, left and right blocks in that
      order, then the position clamped into the world. Each axis follows
      its accumulator and position rules with `60·elapsed` pixels banked. */
  function Move(masks: seq<Mask>, m: Motion, held: Held, elapsed: real, width: int, height: int): (r: Motion)
    requires WellAuthored(masks) && 0 <= m.p.layer < |masks|
    ensures 0 <= r.p.layer < |masks|
    ensures 0 <= width ==> 0 <= r.p.x <= width
    ensures 0 <= height ==> 0 <= r.p.y <= height
    ensures 0.0 <= elapsed && -1.0 < m.accX < 1.0 && -1.0 < m.accY < 1.0 ==>
              -1.0 < r.accX < 1.0 && -1.0 < r.accY < 1.0
    ensures !held.up && !held.down ==> r.accY == m.accY
    ensures !held.left && !held.right ==> r.accX == m.accX
    ensures 0 <= m.p.x <= width && !held.left && !held.right ==> r.p.x == m.p.x
    ensures 0 <= m.p.y <= height && !held.up && !held.down ==> r.p.y == m.p.y
    ensures AccumulatorPaid(held.left, held.right, m.accX, PlayerSpeed * elapsed, r.accX)
    ensures AccumulatorPaid(held.up, held.down, m.accY, PlayerSpeed * elapsed, r.accY)
    ensures 0 <= m.p.x <= width ==>
              CoordinatePaid(held.left, held.right, m.accX, PlayerSpeed * elapsed, m.p.x, r.p.x)
    ensures 0 <= m.p.y <= height ==>
              CoordinatePaid(held.up, held.down, m.accY, PlayerSpeed * elapsed, m.p.y, r.p.y)
    ensures MotionPaid(held, m, elapsed, width, height, r)
  {
    var step := PlayerSpeed * elapsed;
    var vertical := AxisPass(masks, m.p, Up, Down, held.up, held.down, m.accY, step);
    var horizontal := AxisPass(masks, vertical.p, Left, Right, held.left, held.right, m.accX, step);
    var q := horizontal.p;
    assert q.y == vertical.p.y && vertical.p.x == m.p.x;
    ClampKeepsPaid(held.left, held.right, m.accX, step, m.p.x, q.x, width);
    ClampKeepsPaid(held.up, held.down, m.accY, step, m.p.y, q.y, height);
    Motion(Walker(Clamp(q.x, 0, width), Clamp(q.y, 0, height), q.layer), horizontal.acc, vertical.acc)
  }

  /** With no direction held the player stays put: nothing is banked and the
      mask is never sampled. */
  lemma IdleStaysPut(masks: seq<Mask>, m: Motion, elapsed: real, width: int, height: int)
    requires WellAuthored(masks) && 0 <= m.p.layer < |masks|
    requires 0 <= m.p.x <= width && 0 <= m.p.y <= height
    ensures Move(masks, m, Held(false, false, false, false), elapsed, width, height) == m
  {
  }

  /** A wall directly ahead stops the player for the whole block, however
      much movement was banked: position and layer stay as they were. */
  lemma {:induction false} WallBlocks(masks: seq<Mask>, p: Walker, d: Dir, t: real)
    requires WellAuthored(masks) && 0 <= p.layer < |masks|
    requires Ahead(masks, p, d) == Black
    ensures Drain(masks, p, d, t).p == p
    decreases Iterations(t)
  {
    if t >= 1.0 {
      WallBlocks(masks, p, d, t - 1.0);
    }
  }

  /** The colour `k` pixels ahead of `p` on mask `m`. */
  function RayColor(m: Mask, p: Walker, d: Dir, k: int): Color {
    m(p.x + k * DX(d), p.y + k * DY(d))
  }

  /** The `n` pixels ahead of `p` on mask `m` are all open ground. */
  ghost predicate OpenRay(m: Mask, p: Walker, d: Dir, n: nat) {
    forall k | 1 <= k <= n :: RayColor(m, p, d, k) == Other
  }

  /** Over open ground every banked pixel is paid out as one pixel of
      movement, on the same layer. */
  lemma {:induction false} OpenGroundMovesFully(masks: seq<Mask>, p: Walker, d: Dir, t: real)
    requires WellAuthored(masks) && 0 <= p.layer < |masks|
    requires OpenRay(masks[p.layer], p, d, Iterations(t))
    ensures Progress(p, Drain(masks, p, d, t).p, d) == Iterations(t)
    ensures Drain(masks, p, d, t).p.layer == p.layer
    decreases Iterations(t)
  {
    if t >= 1.0 {
      var m := masks[p.layer];
      var q := Walker(p.x + DX(d), p.y + DY(d), p.layer);
      assert Ahead(masks, p, d) == Other by {
        assert RayColor(m, p, d, 1) == Other;
      }
      assert PixelStep(p, d, Other) == q;
      forall k | 1 <= k <= Iterations(t - 1.0)
        ensures RayColor(m, q, d, k) == Other
      {
        RayShift(m, p, d, k);
      }
      OpenGroundMovesFully(masks, q, d, t - 1.0);
    }
  }

  /** One pixel further along, the ray seen from the next pixel is the ray
      seen from `p` shifted by one. */
  lemma RayShift(m: Mask, p: Walker, d: Dir, k: int)
    ensures RayColor(m, Walker(p.x + DX(d), p.y + DY(d), p.layer), d, k) == RayColor(m, p, d, k + 1)
  {
    assert (k + 1) * DX(d) == k * DX(d) + DX(d);
    assert (k + 1) * DY(d) == k * DY(d) + DY(d);
  }
}

=== FILE: scenarios.dfy ===
/** Worked examples of the model on concrete worlds and inputs: the camera
    at the world's corners, picking up the last egg, the clock running
    out, and the title menu cursor. */
module Scenarios {
  import opened WorldModel
  import opened Movement
  import opened Collection
  import opened Level
  import opened Controller

  /** A single-layer walk mask that is open ground everywhere. */
  const OpenMasks: seq<Mask> := [(x: int, y: int) => Other]

  const NoKeys: Held := Held(false, false, false, false)

  function Idle(elapsed: real): Input {
    Input(elapsed, false, false, false, false, false, NoKeys)
  }

  lemma OpenMasksWellAuthored()
    ensures WellAuthored(OpenMasks)
  {
  }

  /** The camera at the two extreme corners of a 1024×720 world with a
      256×240 screen. */
  lemma ViewportCorners()
    ensures var w := World(1024, 720, [], [], 0, 0, 0, 0.0, 5, 5);
      var r := UpdateViewport(w, 256, 240);
      r.viewportX == 0 && r.viewportY == 0
    ensures var w := World(1024, 720, [], [], 1024, 720, 0, 0.0, 5, 5);
      var r := UpdateViewport(w, 256, 240);
      r.viewportX == 768 && r.viewportY == 480
  {
  }

  /** A world with one scored type (goal 1, 16×16 sprite) and its one
      collectible at (100, 100); the player stands at (`x`, `y`). */
  function OneEggWorld(x: int, y: int, timeRemaining: real): World {
    World(1024, 720, [Layer([Collectible(100, 100, 0, true, false)])],
          [CollectibleType("Eggs", 1, 0, 16, 16)], x, y, 0, timeRemaining, 0, 0)
  }

  /** Standing inside the egg's hitbox collects it, meets the goal and ends
      the frame in WON with the clock untouched. */
  lemma PickingUpTheLastEggWins()
    ensures var g := Game(Play, 2.0, OneEggWorld(105, 105, 100.0), 0.0, 0.0, 0);
      var r := Frame(g, Idle(0.5), Assets(OpenMasks, 16, 16));
      && r.Continue? && r.game.mode == Won
      && r.game.world.types[0].collected == 1
      && r.game.world.layers[0].collectibles[0].collected
      && r.game.world.timeRemaining == 100.0
  {
    OpenMasksWellAuthored();
    IdleStaysPut(OpenMasks, Motion(Walker(105, 105, 0), 0.0, 0.0), 0.5, 1024, 720);
    var a := MoveAndCollect(OneEggWorld(105, 105, 100.0), 0.0, 0.0, NoKeys, 0.5, OpenMasks);
    assert a.world.x == 105 && a.world.y == 105 && a.world.layer == 0;
    assert a.world.layers[0].collectibles[0].collected;
    assert a.world.types[0].collected == 1;
    assert Settle(a.world, 0.5).next == Won;
  }

  /** Away from the egg the goal is unmet: half a second comes off the
      clock and play goes on. */
  lemma ClockRunsDown()
    ensures var g := Game(Play, 2.0, OneEggWorld(500, 500, 180.0), 0.0, 0.0, 0);
      var r := Frame(g, Idle(0.5), Assets(OpenMasks, 16, 16));
      r.Continue? && r.game.mode == Play && r.game.world.timeRemaining == 179.5
  {
    OpenMasksWellAuthored();
    IdleStaysPut(OpenMasks, Motion(Walker(500, 500, 0), 0.0, 0.0), 0.5, 1024, 720);
    var a := MoveAndCollect(OneEggWorld(500, 500, 180.0), 0.0, 0.0, NoKeys, 0.5, OpenMasks);
    assert a.world.x == 500 && a.world.y == 500 && a.world.layer == 0;
    assert !a.world.layers[0].collectibles[0].collected;
    assert a.world.types[0].collected == 0;
    assert Settle(a.world, 0.5).next == Play;
  }

  /** The frame that takes the clock to zero ends the game in LOST. */
  lemma ClockRunsOut()
    ensures var g := Game(Play, 2.0, OneEggWorld(500, 500, 0.5), 0.0, 0.0, 0);
      var r := Frame(g, Idle(0.5), Assets(OpenMasks, 16, 16));
      r.Continue? && r.game.mode == Lost && r.game.world.timeRemaining == 0.0
  {
    OpenMasksWellAuthored();
    IdleStaysPut(OpenMasks, Motion(Walker(500, 500, 0), 0.0, 0.0), 0.5, 1024, 720);
    var a := MoveAndCollect(OneEggWorld(500, 500, 0.5), 0.0, 0.0, NoKeys, 0.5, OpenMasks);
    assert a.world.x == 500 && a.world.y == 500 && a.world.layer == 0;
    assert !a.world.layers[0].collectibles[0].collected;
    assert a.world.types[0].collected == 0;
    assert Settle(a.world, 0.5).next == Lost;
  }

  /** On the title screen one press of down selects "Exit"; a second press
      leaves it there. */
  lemma TitleCursorStopsAtExit()
    ensures var down := Input(0.1, false, false, false, false, true, NoKeys);
      var g := Game(Title, 1.0, LoadedWorld(16, 16), 0.0, 0.0, 0);
      var r1 := Frame(g, down, Assets(OpenMasks, 16, 16));
      && r1.Continue? && r1.game.mode == Title && r1.game.option == 1
      && var r2 := Frame(r1.game, down, Assets(OpenMasks, 16, 16));
         r2.Continue? && r2.game.mode == Title && r2.game.option == 1
  {
  }

  /** Confirm in the pause menu with "Resume" selected goes back to play,
      and the accumulators start afresh. */
  lemma ResumeFromPause()
    ensures var confirm := Input(0.1, false, false, true, false, false, NoKeys);
      var g := Game(Pause, 12.0, LoadedWorld(16, 16), 0.0, 0.0, 0);
      var r := Frame(g, confirm, Assets(OpenMasks, 16, 16));
      r.Continue? && r.game.mode == Play && r.game.timer == 0.0
  {
  }

  /** A new session on the loaded level puts the camera at (443, 339):
      the start position less half the screen. */
  lemma SessionStartCamera()
    ensures var w := ResetSession(LoadedWorld(16, 16));
      w.viewportX == 443 && w.viewportY == 339
  {
  }

  /** A descend pixel straight above the player, walking up: one pixel up
      and one layer down. */
  lemma StairsDown()
    ensures PixelStep(Walker(10, 20, 2), Up, Blue) == Walker(10, 19, 1)
    ensures PixelStep(Walker(10, 20, 2), Right, Black) == Walker(10, 20, 2)
  {
  }
}

=== FILE: session.dfy ===
/** Properties of whole runs of the controller: what every frame keeps
    true from the first frame on, what entering a mode guarantees, and what
    a session never undoes. */
module Session {
  import opened WorldModel
  import opened Movement
  import opened Collection
  import opened Level
  import opened Controller

  /** What holds of a loaded world between any two frames. */
  ghost predicate WorldInv(w: World, masks: seq<Mask>) {
    && PlayReady(w, masks)
    && StartLayer < |w.layers|
    && w.width == WorldWidth && w.height == WorldHeight
    && 0 <= w.x <= w.width && 0 <= w.y <= w.height
    && 0 <= w.viewportX <= w.width - ScreenWidth
    && 0 <= w.viewportY <= w.height - ScreenHeight
    && CountersMatch(w)
  }

  /** What holds of the controller between any two frames: accumulators
      within a pixel, the cursor on one of the two menu entries, and, once
      loading is over, a sound world. */
  ghost predicate SessionInv(g: Game, masks: seq<Mask>) {
    && -1.0 < g.accX < 1.0 && -1.0 < g.accY < 1.0
    && 0 <= g.option <= 1
    && (g.mode != Init ==> WorldInv(g.world, masks))
  }

  lemma StartGameInv(masks: seq<Mask>)
    ensures SessionInv(StartGame, masks)
  {
  }

  /** The world INIT loads is sound for the four walk masks. */
  lemma LoadedWorldInv(masks: seq<Mask>, eggWidth: int, eggHeight: int)
    requires |masks| == 4
    ensures WorldInv(LoadedWorld(eggWidth, eggHeight), masks)
  {
    var w := LoadedWorld(eggWidth, eggHeight);
    NothingCollectedCountsZero(w.layers, EggKind);
  }

  /** The title screen's session reset leaves a sound world. */
  lemma ResetSessionInv(w: World, masks: seq<Mask>)
    requires WorldInv(w, masks)
    ensures WorldInv(ResetSession(w), masks)
  {
    var r := ResetSession(w);
    forall l | 0 <= l < |r.layers|
      ensures KindsValid(r.layers[l].collectibles, |r.types|)
    {
      forall i | 0 <= i < |r.layers[l].collectibles|
        ensures r.layers[l].collectibles[i].kind < |r.types|
      {
        assert r.layers[l].collectibles[i].kind == w.layers[l].collectibles[i].kind;
      }
    }
    forall k | 0 <= k < |r.types|
      ensures r.types[k].collected == TotalCollected(r.layers, k)
    {
      NothingCollectedCountsZero(r.layers, k);
    }
  }

  /** A play frame keeps each counter equal to the number of its
      collectibles collected. */
  lemma PlayKeepsCounters(g: Game, input: Input, masks: seq<Mask>)
    requires WellAuthored(masks) && PlayReady(g.world, masks) && CountersMatch(g.world)
    ensures CountersMatch(PlayFrame(g, input, masks).game.world)
  {
    if !input.escape {
      var w := g.world;
      var m := Move(masks, Motion(Walker(w.x, w.y, w.layer), g.accX, g.accY),
                    input.held, input.elapsed, w.width, w.height);
      var moved := w.(x := m.p.x, y := m.p.y, layer := m.p.layer);
      CollectStepKeepsCounters(moved);
      var advanced := MoveAndCollect(w, g.accX, g.accY, input.held, input.elapsed, masks);
      assert advanced.world == CollectStep(moved);
    }
  }

  /** Every frame keeps the session invariant, given the four walk masks of
      the level, authored so that layer changes stay in range, and a
      non-negative frame time. */
  lemma FramePreservesInv(g: Game, input: Input, assets: Assets)
    requires WellAuthored(assets.walkMasks) && |assets.walkMasks| == 4
    requires SessionInv(g, assets.walkMasks)
    requires 0.0 <= input.elapsed
    ensures FrameReady(g, assets)
    ensures Frame(g, input, assets).Continue? ==> SessionInv(Frame(g, input, assets).game, assets.walkMasks)
  {
    var masks := assets.walkMasks;
    if g.mode != Exit {
      var h := Handle(g, input, assets);
      match g.mode {
        case Init =>
          if g.timer != 0.0 {
            LoadedWorldInv(masks, assets.eggWidth, assets.eggHeight);
          }
        case Title =>
          if g.timer == 0.0 {
            ResetSessionInv(g.world, masks);
          }
        case Play =>
          PlayKeepsCounters(g, input, masks);
        case _ =>
      }
      assert h.next != Init ==> WorldInv(h.game.world, masks);
    }
  }

  /** Entering the title screen from any other mode starts a fresh session
      on the next frame, whatever its input: full time, layer 1, the start
      position, every collectible uncollected and visible, every counter
      zero. */
  lemma TitleEntryResets(g: Game, input: Input, nextInput: Input, assets: Assets)
    requires FrameReady(g, assets)
    requires g.mode != Title
    requires Frame(g, input, assets).Continue? && Frame(g, input, assets).game.mode == Title
    ensures var w := TitleFrame(Frame(g, input, assets).game, nextInput).game.world;
      && w.timeRemaining == SessionTime && w.layer == StartLayer
      && w.x == StartX && w.y == StartY
      && (forall l, i | 0 <= l < |w.layers| && 0 <= i < |w.layers[l].collectibles| ::
            !w.layers[l].collectibles[i].collected && w.layers[l].collectibles[i].visible)
      && (forall k | 0 <= k < |w.types| :: w.types[k].collected == 0)
  {
  }

  /** Whatever the cursor held before, a frame that ends on the title or
      pause menu leaves it on one of the two entries. */
  lemma MenuCursorInRange(g: Game, input: Input, assets: Assets)
    requires FrameReady(g, assets)
    requires Frame(g, input, assets).Continue?
    requires Frame(g, input, assets).game.mode == Title || Frame(g, input, assets).game.mode == Pause
    ensures 0 <= Frame(g, input, assets).game.option <= 1
  {
  }

  /** Within a session a collected flag never reverts: only loading and the
      title screen's reset rewrite the collectibles. */
  lemma MarksNeverRevert(g: Game, input: Input, assets: Assets)
    requires FrameReady(g, assets)
    requires g.mode != Init && g.mode != Title
    requires Frame(g, input, assets).Continue?
    ensures OnlyMarks(g.world.layers, Frame(g, input, assets).game.world.layers)
  {
  }
}

=== FILE: world.dfy ===
/** The world the player explores: layers of collectibles, the collectible
    types with their goals and running counts, the player's position and
    layer, the countdown, and the camera (viewport) derived from them. */
module WorldModel {
  import opened Clamping

  /** The walk-mask colours the movement engine tells apart: blue leads one
      layer down, yellow one layer up, black is a wall, every other colour
      (including the blank pixel read outside the raster) is open ground. */
  datatype Color = Blue | Yellow | Black | Other

  /** A layer's walk mask, as the colour found at each world pixel. */
  type Mask = (int, int) -> Color

  /** A category of pickup. `goal` 0 marks a type that is not scored;
      `spriteWidth`/`spriteHeight` are the size of its raster, which is also
      the hitbox of every collectible of the type. */
  datatype CollectibleType = CollectibleType(
    name: string,
    goal: nat,
    collected: nat,
    spriteWidth: int,
    spriteHeight: int)

  /** One placed pickup. `kind` is the index of its type in `World.types`
      (the shared, non-owning type reference of the game). */
  datatype Collectible = Collectible(x: int, y: int, kind: nat, visible: bool, collected: bool)

  /** One depth slice of the map; its background and walk-mask rasters are
      assets, held outside the world. */
  datatype Layer = Layer(collectibles: seq<Collectible>)

  datatype World = World(
    width: int,
    height: int,
    layers: seq<Layer>,
    types: seq<CollectibleType>,
    x: int,
    y: int,
    layer: int,
    timeRemaining: real,
    viewportX: int,
    viewportY: int)

  /** Every collectible of `cs` refers to one of `n` types. */
  predicate KindsValid(cs: seq<Collectible>, n: nat) {
    forall i | 0 <= i < |cs| :: cs[i].kind < n
  }

  /** Every collectible of every layer refers to a type of the world. */
  predicate AllKindsValid(w: World) {
    forall l | 0 <= l < |w.layers| :: KindsValid(w.layers[l].collectibles, |w.types|)
  }

  /** The camera: a screen-sized window centred on the player, pushed back
      inside the world where the player is near an edge. */
  function UpdateViewport(w: World, screenWidth: nat, screenHeight: nat): (r: World)
    ensures r == w.(viewportX := r.viewportX, viewportY := r.viewportY)
    ensures screenWidth <= w.width ==> 0 <= r.viewportX <= w.width - screenWidth
    ensures screenHeight <= w.height ==> 0 <= r.viewportY <= w.height - screenHeight
    ensures (screenWidth / 2 <= w.x <= w.width - screenWidth + screenWidth / 2) ==>
              r.viewportX == w.x - screenWidth / 2
    ensures (screenHeight / 2 <= w.y <= w.height - screenHeight + screenHeight / 2) ==>
              r.viewportY == w.y - screenHeight / 2
    ensures screenWidth <= w.width && w.x - screenWidth / 2 <= 0 ==> r.viewportX == 0
    ensures screenWidth <= w.width && w.x - screenWidth / 2 >= w.width - screenWidth ==>
              r.viewportX == w.width - screenWidth
    ensures screenHeight <= w.height && w.y - screenHeight / 2 <= 0 ==> r.viewportY == 0
    ensures screenHeight <= w.height && w.y - screenHeight / 2 >= w.height - screenHeight ==>
              r.viewportY == w.height - screenHeight
  {
    var offsetX := screenWidth / 2;
    var offsetY := screenHeight / 2;
    w.(viewportX := Clamp(w.x - offsetX, 0, w.width - screenWidth),
       viewportY := Clamp(w.y - offsetY, 0, w.height - screenHeight))
  }
}
